=== FILE: README.md ===
# rwc — report when changed, modelled in Dafny

rwc watches a list of paths and prints one record per change: `[- ]path`
followed by a newline, or by NUL under `-0`. The "- " prefix marks a
deletion, which is watched for only under `-d`. Under `-p` (pipe mode) rwc
drops the rest of a batch of events as soon as stdout still holds unread
bytes.

This project models the engine in `rwc.c`: the watch set, registration and
the event loops. Each kernel interface has its own variant:

- `order.dfy` (module `Order`): the two tsearch comparators. `strcmp` on
  paths and `wdorder` on watch descriptors are strict total orders whose
  "equal" verdict is equality. So the search trees `root` and `wds` are
  modelled as a `set<string>` and a `map<int, string>`.
- `paths.dfy` (module `Paths`): POSIX.1-2017 `dirname()`, which `add` uses
  to pick a watch target, and the candidate path `run` builds from a
  directory and a child name (the bare name when the directory is `"."`).
  POSIX leaves the handling of a leading `//` to the implementation; the
  model takes musl's choice, so `//` and `//x` give `/`. glibc returns
  `//` for both.
- `records.dfy` (module `Records`): the record format, the `-0` delimiter,
  and how `main` turns an input line into a path. It strips the trailing
  delimiter and reads the line as a C string. It also defines how a
  NUL-delimited output stream cuts back into record texts (`SplitNul`).
- `inotify.dfy` (module `Inotify`): the Linux build. A class `Watcher`
  holds `root` and `wds`. Its methods:
  - `Add`: rwc's `add`.
  - `Resolve`: the filtering steps of one loop pass.
  - `ProcessBatch`: one `read()` buffer walked record by record.
  - `Run`: successive reads.

  Pure functions specify these methods: `AddWatch`, `Matches`, `Emit` and
  `RunOutput`. `Printed` lists the record texts one batch prints, and
  `EmitIsTerminated` ties it to `Emit`. Lemmas state the properties.
- `kqueue.dfy` (module `Kqueue`): the kqueue build. A class `Watcher` holds
  `root` and the filters it registered. It has `Add`, `ProcessBatch` and
  `Run`, specified by `AddFile`, `Emit` and `RunOutput`, with `Printed`
  again listing the record texts of a batch.

The kernel becomes inputs:

- `add` takes whether `lstat()` saw a directory (`isDir`).
- Linux `add` takes the descriptor `inotify_add_watch()` returned (`wd`).
- kqueue `add` takes the descriptor `open()` returned (`fd`) and whether
  `kevent()` accepted the filter (`keventOk`).
- Each read is the sequence of decoded events it returned. A read that
  returned nothing is the empty sequence.
- Pipe mode reads a sequence of `FIONREAD` values (`probes`):
  - Linux takes one value per matching event;
  - kqueue takes one value per event.
- Output is returned as a string, not written to stdout.
- Paths are C strings: `add` receives a `char *`, so a registered path
  never holds a NUL (both `Add` methods require it), and `lstat("")`
  fails, so an empty path is never a directory. The invariant
  `Consistent` carries these facts for the tables.

Four details of the code are easy to miss; the model follows the code in each:

- `run` reports an event when the candidate path or the **mapped
  directory** is watched (rwc.c:134-135). It does not test the dirname of
  the candidate. `Inotify.MatchIsDirnameRule` shows the two tests agree
  when the directory has no trailing slash and the child name has no slash.
  With a trailing slash they differ: a directory registered as `a/` reports
  `a//x`.
- An `IN_IGNORED` record is only skipped (rwc.c:115-116). Its descriptor
  stays in `wds`.
- Linux `add` inserts the path into the watch set before anything else
  (rwc.c:80). A path whose watch could not be created therefore stays in
  the set.
- In the kqueue build a failed wait is not fatal. When `kevent()` returns
  -1 (rwc.c:195-196) the loop body does not run and rwc waits again. Only
  an event carrying EV_ERROR ends the process. In the model an empty batch
  is likewise not fatal on kqueue, while on Linux an empty read is.

Two consequences of the code as written are stated as lemmas:

- Whatever has been registered, no reported event prints the path `/m` or
  `./m` for a plain name `m` (`ReportedPathNeverDotSlashOrRootLevel`).
  Every candidate built from `/` starts with `//`, and the candidates
  built from `.` are bare names.
- So a non-directory registered as `/name` or `./name` is never reported
  under that path. When it is the only registration, nothing on its watch
  is reported at all (`RootLevelFileNeverReported`,
  `DotSlashFileNeverReported`). If `/` or `.` is also registered as a
  directory, the kernel returns the same watch and the change is printed
  as `//name` or as the bare `name`.

`RegisteredFileIsReported` gives the positive case: `dir/name` with a plain
`dir`, and a bare `name`.

## Model

| member | source | states |
|---|---|---|
| Order.Strcmp | rwc.c:44-48 | the sign of `order` (-1, 0 or 1 in the model; C fixes only the sign of strcmp, which is all tsearch uses) is 0 exactly for equal paths; a negative verdict never has the first byte of the first path above that of the second |
| Order.StrcmpProperPrefix | rwc.c:44-48 | a proper prefix sorts before the longer path |
| Order.StrcmpFirstDifference | rwc.c:44-48 | two paths that first differ at byte k are ordered by that byte |
| Order.StrcmpAntisymmetric | rwc.c:44-48 | swapping the two paths flips the sign of `order` |
| Order.StrcmpTransitive | rwc.c:44-48 | `order` is transitive, so the watch tree is keyed by a strict total order and holds each path at most once |
| Order.WdOrder | rwc.c:58-70 | `wdorder` returns 0 exactly for equal descriptors and -1/1 by their numeric order |
| Paths.Dirname | rwc.c:82-84 | the watch target of a non-directory is "." for the empty path, "/" for a path of slashes only, and otherwise ".", "/" or a proper prefix of the path without a trailing slash |
| Paths.DirnameOfPlainName | rwc.c:82-84 | a path without a slash, the empty path of an empty input line included, is watched through "." |
| Paths.DirnameIgnoresTrailingSlash | rwc.c:82-84 | a trailing slash does not change the directory that is watched |
| Paths.DirnameOfJoin | rwc.c:82-84 | the dirname of "d/name" is d without its trailing slashes, or "/" when nothing is left |
| Paths.DirnameOfCandidate | rwc.c:125-135 | the candidate built from a directory (as dirname writes it) and a child name has that directory as its dirname |
| Paths.Candidate | rwc.c:125-132 | the path built for an event is exactly the child name when the directory is "."; otherwise it is the directory, a slash and the name |
| Paths.CandidateNeverDotSlash | rwc.c:125-132 | a candidate built from a child name without a slash never reads "./m" for a plain name m |
| Paths.CandidateNeverRootLevel | rwc.c:125-132 | a candidate built from a non-empty directory and a child name without a slash never reads "/m" for a plain name m |
| Paths.CandidateInjective | rwc.c:125-132 | two different child names of one directory never give the same candidate path |
| Records.Delimiter | rwc.c:229 | the record delimiter is NUL exactly under `-0`, a newline otherwise |
| Records.DeleteRecordIsPrefixedChange | rwc.c:142-145 | a deletion record is the change record for the same path behind "- " |
| Records.RecordLayout | rwc.c:142-145 | a record (`Record`) is "- " exactly for a deletion, then the path, then the delimiter as its last byte; under `-0` a C-string path leaves that NUL the record's only one |
| Records.SplitNulTerminated | rwc.c:142-145 | cutting a stream of C-string texts, each followed by NUL, at every NUL gives back exactly those texts |
| Records.StripDelimiter | rwc.c:274-275 | a line loses its trailing delimiter, and only that, when it ends with one |
| Records.InputPath | rwc.c:274-277 | the path `add` receives is the line, stripped of its trailing delimiter, up to its first NUL: a C string and a prefix of the line read |
| Records.CStringOfCString | rwc.c:274-277 | a buffer holding exactly a NUL-free string reads back as that string |
| Records.RecordReadsBack | rwc.c:266-277 | a printed record, read back as one input line with the same delimiter, gives back the printed text (getdelim returns it as one line only when the path holds no delimiter) |
| Inotify.WatchMask | rwc.c:86 | every watch asks for IN_MOVED_TO and IN_CLOSE_WRITE, asks for IN_DELETE and IN_DELETE_SELF exactly under `-d`, and never for IN_IGNORED |
| Inotify.AddWatch | rwc.c:80-95 | `add` puts the path into the watch set; a wd >= 0 not yet mapped is mapped to the watch target; an entry already mapped is never overwritten; a negative wd adds no entry |
| Inotify.WatchTargetIsCString | rwc.c:78-84 | the watch target of a C-string path that is not an empty directory name is a non-empty C string |
| Inotify.Watcher.Add | rwc.c:72-96 | the path joins the watch set in every case; the target is the path when lstat saw a directory, its dirname otherwise; a wd >= 0 not yet mapped is mapped to the target, a mapped wd keeps its directory, a negative wd leaves the map alone; every mapped directory stays the target of a watched path |
| Inotify.AddKeepsConsistent | rwc.c:80-95 | after `add` every directory in the wd map is still the path or dirname of some watched path |
| Inotify.AddAgainChangesNothing | rwc.c:80-95 | re-adding a watched path, when the kernel hands back a wd already mapped or fails, leaves both tables unchanged |
| Inotify.Matches | rwc.c:115-135 | an event is reported exactly when it is not IN_IGNORED, its wd is mapped, and its candidate path or its mapped directory is watched (both directions) |
| Inotify.Watcher.Resolve | rwc.c:115-135 | an event is reported exactly when its mask lacks IN_IGNORED, its wd is mapped, and the candidate or the mapped directory is watched; the name returned is the candidate |
| Inotify.Watcher.ProcessBatch | rwc.c:105-148 | walking the buffer by header size plus name length visits every record in order; the output is that of `Emit`; an empty read is fatal |
| Inotify.OffsetBeforeEnd | rwc.c:112 | every record starts before the end of the bytes read, so the offset walk ends after the last record |
| Inotify.Watcher.Run | rwc.c:98-150 | batches are processed in order until a read returns nothing, which ends the run with a fatal exit |
| Inotify.EmitAppend | rwc.c:112-148 | without pipe mode, the output of two runs of records read one after the other is their two outputs joined |
| Inotify.EmitOne | rwc.c:115-147 | a single event prints its record exactly when it matches, and nothing otherwise |
| Inotify.PipeCut | rwc.c:136-141 | pipe mode prints the full output of a prefix of the batch (it stops at an event boundary), and the whole batch when no probe is positive |
| Inotify.PipeOutputIsPrefix | rwc.c:136-141 | in pipe mode the output of a batch is a prefix of its output without pipe mode |
| Inotify.DeletionPrefix | rwc.c:142-145 | a record carries "- " exactly when the mask has IN_DELETE; IN_DELETE_SELF alone prints the plain record |
| Inotify.DirectoryChildReported | rwc.c:125-147 | a watched directory reports a child event as "dir/name", and as the bare name when the directory is "." |
| Inotify.SiblingNotReported | rwc.c:125-135 | when only "dir/f" is watched, an event for another child of dir prints nothing |
| Inotify.RegisteredFileIsReported | rwc.c:82-135 | a non-directory registered as "dir/name" or "name" is watched through its directory, and a change to it is reported under the path as registered |
| Inotify.RootLevelFileNeverReported | rwc.c:82-135 | a non-directory registered as "/name", when it is the only registration, gets a watch on "/" on which no event is reported |
| Inotify.DotSlashFileNeverReported | rwc.c:82-135 | a non-directory registered as "./name", when it is the only registration, gets a watch on "." on which no event naming a plain child is reported |
| Inotify.ReportedPathNeverDotSlashOrRootLevel | rwc.c:125-135 | for any tables `add` can build, a reported event with a slash-free name never prints the path "./m" or "/m" |
| Inotify.MatchIsDirnameRule | rwc.c:134-135 | for a directory as dirname writes it and a plain child name, testing the mapped directory equals testing the candidate's dirname |
| Inotify.RunAppend | rwc.c:101-149 | each batch starts afresh: the output of a run is the output of its first batches followed by that of the rest |
| Inotify.EmitIsTerminated | rwc.c:112-148 | the output of a batch is the record texts it prints, in event order, each followed by the delimiter |
| Inotify.PrintedCStrings | rwc.c:125-145 | with C-string paths and event names, every record text a batch prints is a C string |
| Inotify.NulOutputSplitsIntoRecords | rwc.c:112-148 | under `-0`, cutting a batch's output at its NULs gives back exactly the record texts printed, in order |
| Kqueue.FilterFlags | rwc.c:177-179 | every filter asks for NOTE_WRITE, NOTE_ATTRIB and NOTE_RENAME, and for NOTE_DELETE exactly under `-d` |
| Kqueue.AddFile | rwc.c:160-184 | `add` returns early exactly when the path is watched; the path is watched afterwards when it was or open succeeded; a filter is recorded, under the new descriptor with the path as udata, exactly when open and kevent both succeed |
| Kqueue.Watcher.Add | rwc.c:152-185 | a watched path returns at once with nothing changed or opened; a failed open changes nothing; a successful open records the path even if kevent fails, and the filter only if kevent accepts it |
| Kqueue.AddKeepsConsistent | rwc.c:171-184 | every registered filter carries a watched path as its udata |
| Kqueue.AddTwiceOpensOnce | rwc.c:162-164 | after an `add` that opened the path, adding it again opens nothing and changes nothing |
| Kqueue.Watcher.ProcessBatch | rwc.c:196-214 | events are printed in order with no filtering; the output is that of `Emit`, fatal at the first EV_ERROR |
| Kqueue.Watcher.Run | rwc.c:194-215 | batches are processed in order until an EV_ERROR ends the run |
| Kqueue.EmitOne | rwc.c:203-213 | an event without EV_ERROR always prints the record of its udata path, with "- " exactly when NOTE_DELETE fired |
| Kqueue.EmitAppend | rwc.c:196-214 | without pipe mode, events before any EV_ERROR print independently of what follows them |
| Kqueue.FatalIffError | rwc.c:198-201 | without pipe mode a batch is fatal exactly when one of its events carries EV_ERROR |
| Kqueue.PipeOutputIsPrefix | rwc.c:203-208 | pipe mode prints a prefix of the full output, is fatal only when the full batch is, and prints all of it when no probe is positive |
| Kqueue.RunAppend | rwc.c:194-215 | each batch starts afresh: the output of a run is that of its first, non-fatal batches followed by that of the rest |
| Kqueue.EmitIsTerminated | rwc.c:196-214 | the text of a batch is the record texts it prints, in event order, each followed by the delimiter |
| Kqueue.PrintedCStrings | rwc.c:209-212 | events whose udata is a watched path print C-string record texts |
| Kqueue.NulOutputSplitsIntoRecords | rwc.c:196-214 | under `-0`, cutting a batch's text at its NULs gives back exactly the record texts printed, when every event carries a registered udata |

## Left out

- System calls are inputs, not modelled: `inotify_init`, `kqueue`, `inotify_add_watch`, `open`, `kevent`, `lstat`, `read` and `ioctl(FIONREAD)`. Output is returned as a string instead of being written with `printf` and `fflush`.
- That the kernel echoes a filter's udata in its events is kernel behaviour. The kqueue events carry their udata directly.
- Process exits are modelled only as a fatal flag: on Linux, exit status 1 on an empty or failed read; on kqueue, exit status 111 on EV_ERROR (a failed `kevent()` wait is not fatal there). The usage exit (status 2) and the exit on `inotify_init`/`kqueue` failure are left out.
- Two parts of `main` are I/O glue and are left out: `getopt` parsing and the `getdelim` loop over stdin. Only the delimiter strip is modelled (`Records.InputPath`).
- C pointer aliasing is not modelled. Strings are values captured at registration:
  - `dirname` may rewrite its argument in place;
  - `wdmap.dir` and kqueue udata point into argv or the `line` buffer, which `getdelim` reuses while reading.

  Worse, `free(line)` (rwc.c:280) runs before `run()`. Every wd-map directory and every kqueue udata taken from a stdin line is then a dangling pointer when events arrive, so what C prints for them is undefined. The model prints the string registered.
- `PATH_MAX` truncation in `snprintf` is not modelled: the candidate is never truncated.
- The raw `struct inotify_event` layout is not modelled beyond the offset step of 16 header bytes plus `len`. The name is taken as decoded, so when `len` is 0 the bytes that follow the header are not read as a name. The 8192-byte read buffer and the 5-event `kevent` limit are not modelled.
- The dead `lstat` branch in kqueue `add` has no behaviour. The memory leaks have no observable effect. Neither is modelled.
- tsearch's balanced tree shape is not modelled. Only the set and map it represents are, justified by the comparator lemmas in `Order`.
- Inotify.Watcher.ProcessBatch: in pipe mode `probes`, the sequence of `FIONREAD` values standing in for the kernel, must hold one value per event of the batch. This sizes the model's oracle; the source asks nothing of its callers here.
- Kqueue.Watcher.ProcessBatch: in pipe mode `probes`, the sequence of `FIONREAD` values standing in for the kernel, must hold one value per event of the batch. This sizes the model's oracle; the source asks nothing of its callers here.
- Inotify.NulOutputSplitsIntoRecords: event names are taken to be C strings, as the kernel's NUL-padded name field is read with `%s`; the model does not decode the padding.
- Kqueue.NulOutputSplitsIntoRecords: every event is taken to carry the udata of a registered filter, which is what the kernel echoes; the model does not derive this.

=== FILE: inotify.dfy ===
/**
 * rwc on Linux: registration with inotify and the event loop that turns
 * inotify records into output records.
 *
 * The kernel is replaced by inputs: whether lstat() saw a directory, the
 * descriptor inotify_add_watch() returned, the decoded records of each
 * read() and the values FIONREAD reported on stdout in pipe mode.
 */
module Inotify {
  import opened Paths
  import opened Records

  const IN_CLOSE_WRITE: bv32 := 0x8
  const IN_MOVED_TO: bv32 := 0x80
  const IN_DELETE: bv32 := 0x200
  const IN_DELETE_SELF: bv32 := 0x400
  const IN_IGNORED: bv32 := 0x8000

  /** sizeof(struct inotify_event): wd, mask, cookie and len, four bytes each. */
  const HeaderSize: nat := 16

  /** `dflag`: the deletion bits `-d` adds to every watch. */
  function DeleteFlags(detectDeletes: bool): (flags: bv32)
  {
    if detectDeletes then IN_DELETE | IN_DELETE_SELF else 0
  }

  /** The mask `add` passes to inotify_add_watch. */
  function WatchMask(detectDeletes: bool): (mask: bv32)
    ensures mask & IN_MOVED_TO != 0 && mask & IN_CLOSE_WRITE != 0
    ensures mask & IN_DELETE != 0 <==> detectDeletes
    ensures mask & IN_DELETE_SELF != 0 <==> detectDeletes
    ensures mask & IN_IGNORED == 0
  {
    IN_MOVED_TO | IN_CLOSE_WRITE | DeleteFlags(detectDeletes)
  }

  /**
   * One record of a read() from the inotify descriptor: the header fields
   * rwc uses, `len` (the size of the NUL-padded name field that follows the
   * header) and the name that field holds.
   */
  datatype Event = Event(wd: int, mask: bv32, len: nat, name: string)

  /** The kernel dropped the watch (IN_IGNORED): not a change to report. */
  predicate IsIgnored(ev: Event)
  {
    ev.mask & IN_IGNORED != 0
  }

  /** The event reports a deletion (IN_DELETE; IN_DELETE_SELF alone does not count). */
  predicate IsDeletion(ev: Event)
  {
    ev.mask & IN_DELETE != 0
  }

  /** The two search trees: the watch set `root` and the wd-to-directory map `wds`. */
  datatype Tables = Tables(root: set<string>, wds: map<int, string>)

  /** What `add` watches: the path itself if lstat saw a directory, else its dirname. */
  function WatchTarget(file: string, isDir: bool): (dir: string)
  {
    if isDir then file else Dirname(file)
  }

  /**
   * The tables after `add(file)`: the path joins the watch set whatever
   * happens; a descriptor (wd >= 0) is recorded against the watch target
   * unless the map already has it, in which case tsearch keeps the old entry.
   */
  function AddWatch(t: Tables, file: string, isDir: bool, wd: int): (t': Tables)
    ensures t'.root == t.root + {file}
    ensures t'.wds.Keys == if wd < 0 then t.wds.Keys else t.wds.Keys + {wd}
    ensures forall w | w in t.wds :: t'.wds[w] == t.wds[w]
    ensures wd >= 0 && wd !in t.wds ==> t'.wds[wd] == WatchTarget(file, isDir)
  {
    Tables(t.root + {file},
           if wd < 0 || wd in t.wds then t.wds else t.wds[wd := WatchTarget(file, isDir)])
  }

  /**
   * Every watched path is a C string, and every directory in the wd map is
   * a non-empty C string and the watch target of some watched path.
   */
  ghost predicate Consistent(t: Tables)
  {
    (forall f | f in t.root :: IsCString(f)) &&
    (forall w | w in t.wds :: t.wds[w] != "" && IsCString(t.wds[w])) &&
    forall w | w in t.wds :: exists f | f in t.root :: t.wds[w] == f || t.wds[w] == Dirname(f)
  }

  /** Whether `run` reports an event: not IN_IGNORED, a known wd, and the candidate or the directory watched. */
  function Matches(t: Tables, ev: Event): (reported: bool)
    ensures reported ==> !IsIgnored(ev) && ev.wd in t.wds
    ensures !IsIgnored(ev) && ev.wd in t.wds && t.wds[ev.wd] in t.root ==> reported
    ensures reported && t.wds[ev.wd] !in t.root ==> Candidate(t.wds[ev.wd], ev.name) in t.root
    ensures !IsIgnored(ev) && ev.wd in t.wds && Candidate(t.wds[ev.wd], ev.name) in t.root ==> reported
  {
    !IsIgnored(ev) && ev.wd in t.wds &&
    (Candidate(t.wds[ev.wd], ev.name) in t.root || t.wds[ev.wd] in t.root)
  }

  /** The record printed for an event whose wd is known. */
  function EventRecord(t: Tables, ev: Event, delim: char): (record: string)
    requires ev.wd in t.wds
  {
    Record(IsDeletion(ev), Candidate(t.wds[ev.wd], ev.name), delim)
  }

  /** The text of that record, without its delimiter. */
  function EventText(t: Tables, ev: Event): (text: string)
    requires ev.wd in t.wds
  {
    RecordText(IsDeletion(ev), Candidate(t.wds[ev.wd], ev.name))
  }

  /** Pipe mode has a FIONREAD value for every event of the batch that may need one. */
  predicate ProbesCover(batch: seq<Event>, pflag: bool, probes: seq<int>)
  {
    pflag ==> |probes| >= |batch|
  }

  /**
   * The output of one batch: each matching event in order gives its record;
   * in pipe mode each matching event first takes the next FIONREAD value
   * and, if it is positive, the rest of the batch is dropped.
   */
  function Emit(t: Tables, batch: seq<Event>, pflag: bool, probes: seq<int>, delim: char): (out: string)
    requires ProbesCover(batch, pflag, probes)
    decreases |batch|
  {
    if batch == [] then ""
    else if !Matches(t, batch[0]) then Emit(t, batch[1..], pflag, probes, delim)
    else if pflag && probes[0] > 0 then ""
    else EventRecord(t, batch[0], delim) + Emit(t, batch[1..], pflag, if pflag then probes[1..] else probes, delim)
  }

  /** The FIONREAD values still to come once p of them are used. */
  predicate ProbesLeft(batch: seq<Event>, pflag: bool, probes: seq<int>, k: nat, p: nat)
  {
    k <= |batch| && (pflag ==> p <= |probes| && |probes| - p >= |batch| - k) && (!pflag ==> p == 0)
  }

  /** A record that does not match adds nothing to the output. */
  lemma EmitSkip(t: Tables, batch: seq<Event>, pflag: bool, probes: seq<int>, k: nat, p: nat, delim: char)
    requires k < |batch| && ProbesLeft(batch, pflag, probes, k, p)
    requires !Matches(t, batch[k])
    ensures Emit(t, batch[k..], pflag, probes[p..], delim) == Emit(t, batch[k + 1..], pflag, probes[p..], delim)
  {
    assert batch[k..][0] == batch[k] && batch[k..][1..] == batch[k + 1..];
  }

  /** A matching record met with a positive FIONREAD value in pipe mode ends the batch. */
  lemma EmitStop(t: Tables, batch: seq<Event>, probes: seq<int>, k: nat, p: nat, delim: char)
    requires k < |batch| && ProbesLeft(batch, true, probes, k, p)
    requires Matches(t, batch[k]) && probes[p] > 0
    ensures Emit(t, batch[k..], true, probes[p..], delim) == ""
  {
    assert batch[k..][0] == batch[k];
    assert probes[p..][0] == probes[p];
  }

  /** A matching record that is printed puts its record before the output of the rest. */
  lemma EmitReport(t: Tables, batch: seq<Event>, pflag: bool, probes: seq<int>, k: nat, p: nat, delim: char)
    requires k < |batch| && ProbesLeft(batch, pflag, probes, k, p)
    requires Matches(t, batch[k]) && (pflag ==> probes[p] <= 0)
    ensures var p' := if pflag then p + 1 else p;
      Emit(t, batch[k..], pflag, probes[p..], delim)
        == EventRecord(t, batch[k], delim) + Emit(t, batch[k + 1..], pflag, probes[p'..], delim)
  {
    assert batch[k..][0] == batch[k] && batch[k..][1..] == batch[k + 1..];
    if pflag {
      assert probes[p..][0] == probes[p] && probes[p..][1..] == probes[p + 1..];
    }
  }

  /** The byte offset of record k in the read buffer: each record is a header and its name field. */
  function Offset(batch: seq<Event>, k: nat): (offset: nat)
    requires k <= |batch|
  {
    if k == 0 then 0 else Offset(batch, k - 1) + HeaderSize + batch[k - 1].len
  }

  /** Offsets grow strictly, so the records end exactly at the number of bytes read. */
  lemma {:induction false} OffsetBeforeEnd(batch: seq<Event>, k: nat)
    requires k < |batch|
    ensures Offset(batch, k) < Offset(batch, |batch|)
  {
    if k + 1 < |batch| {
      OffsetBeforeEnd(batch[..|batch| - 1], k);
      OffsetPrefix(batch, |batch| - 1, k);
      OffsetPrefix(batch, |batch| - 1, |batch| - 1);
    }
  }

  /** Offsets within a prefix of the batch are those of the whole batch. */
  lemma {:induction false} OffsetPrefix(batch: seq<Event>, n: nat, k: nat)
    requires k <= n <= |batch|
    ensures Offset(batch[..n], k) == Offset(batch, k)
  {
    if k > 0 {
      OffsetPrefix(batch, n, k - 1);
    }
  }

  /** The output of a run: batch after batch until a read returns nothing (rwc then exits with status 1). */
  function RunOutput(t: Tables, batches: seq<seq<Event>>, pflag: bool, probes: seq<seq<int>>, delim: char): (out: string)
    requires |probes| == |batches|
    requires forall i | 0 <= i < |batches| :: ProbesCover(batches[i], pflag, probes[i])
  {
    if batches == [] || batches[0] == [] then ""
    else Emit(t, batches[0], pflag, probes[0], delim) + RunOutput(t, batches[1..], pflag, probes[1..], delim)
  }

  /** The global state of rwc on Linux: the watch set and the wd-to-directory map. */
  class Watcher {
    var root: set<string>
    var wds: map<int, string>

    function State(): Tables
      reads this
    {
      Tables(root, wds)
    }

    constructor ()
      ensures root == {} && wds == map[]
      ensures Consistent(State())
    {
      root, wds := {}, map[];
    }

    /**
     * `add(file)`. `isDir` is true when lstat() succeeded and saw a
     * directory; `wd` is what inotify_add_watch() returned for the request
     * (`dir`, `mask`) this call makes. A negative wd (the warning case)
     * leaves the map alone but the path stays in the watch set. The path is
     * a C string, and lstat("") fails, so an empty path is never a directory.
     */
    method Add(file: string, isDir: bool, wd: int, detectDeletes: bool) returns (dir: string, mask: bv32)
      requires IsCString(file) && (isDir ==> file != "")
      requires Consistent(State())
      modifies this
      ensures Consistent(State())
      ensures dir == (if isDir then file else Dirname(file))
      ensures mask == WatchMask(detectDeletes)
      ensures root == old(root) + {file}
      ensures wd < 0 || wd in old(wds) ==> wds == old(wds)
      ensures wd >= 0 && wd !in old(wds) ==> wds == old(wds)[wd := dir]
      ensures State() == AddWatch(old(State()), file, isDir, wd)
    {
      root := root + {file};
      dir := file;
      if !isDir {
        dir := Dirname(file);
      }
      mask := IN_MOVED_TO | IN_CLOSE_WRITE | DeleteFlags(detectDeletes);
      if wd >= 0 && wd !in wds {
        wds := wds[wd := dir];
      }
      AddKeepsConsistent(old(State()), file, isDir, wd);
    }

    /**
     * The filtering steps of `run`'s loop body for one record: skip an
     * IN_IGNORED record or an unknown descriptor, build the candidate path
     * from the mapped directory, and look it up, then the directory.
     */
    method Resolve(ev: Event) returns (reported: bool, name: string)
      ensures reported <==> Matches(State(), ev)
      ensures reported ==> name == Candidate(wds[ev.wd], ev.name)
    {
      reported, name := false, ev.name;
      if ev.mask & IN_IGNORED != 0 || ev.wd !in wds {
        return;
      }
      var dir := wds[ev.wd];
      if dir != "." {
        name := dir + "/" + ev.name;
      }
      reported := name in root || dir in root;
    }

    /**
     * One pass of `run`'s loop over a read() buffer: records are visited at
     * offsets 0, HeaderSize + len, ... up to the number of bytes read. An
     * empty read is fatal (rwc exits with status 1).
     */
    method ProcessBatch(batch: seq<Event>, pflag: bool, probes: seq<int>, delim: char)
        returns (out: string, fatal: bool)
      requires ProbesCover(batch, pflag, probes)
      ensures fatal <==> batch == []
      ensures out == Emit(State(), batch, pflag, probes, delim)
    {
      var len := Offset(batch, |batch|);
      if len == 0 {
        return "", true;
      }
      out, fatal := "", false;
      ghost var t := State();
      var i, k, p := 0, 0, 0;
      while i < len
        invariant ProbesLeft(batch, pflag, probes, k, p) && i == Offset(batch, k)
        invariant t == State()
        invariant Emit(t, batch, pflag, probes, delim)
               == out + Emit(t, batch[k..], pflag, probes[p..], delim)
        decreases len - i
      {
        var ev := batch[k];
        ghost var j := k;
        i, k := i + HeaderSize + ev.len, k + 1;
        var reported, name := Resolve(ev);
        if !reported {
          EmitSkip(t, batch, pflag, probes, j, p, delim);
          continue;
        }
        if pflag {
          var n := probes[p];
          if n > 0 {
            EmitStop(t, batch, probes, j, p, delim);
            break;
          }
        }
        EmitReport(t, batch, pflag, probes, j, p, delim);
        ghost var rest := Emit(t, batch[k..], pflag, probes[(if pflag then p + 1 else p)..], delim);
        var record := Record(IsDeletion(ev), name, delim);
        AppendRegroup(out, record, rest);
        out := out + record;
        if pflag {
          p := p + 1;
        }
      }
      if i >= len {
        if k < |batch| {
          OffsetBeforeEnd(batch, k);
        }
        assert batch[k..] == [];
      }
    }

    /**
     * `run`: process batches in the order read() returns them, stopping when
     * a read returns nothing. Without such a read the loop would go on
     * waiting, which `exited == false` stands for.
     */
    method Run(batches: seq<seq<Event>>, pflag: bool, probes: seq<seq<int>>, delim: char)
        returns (out: string, exited: bool)
      requires |probes| == |batches|
      requires forall i | 0 <= i < |batches| :: ProbesCover(batches[i], pflag, probes[i])
      ensures exited <==> [] in batches
      ensures out == RunOutput(State(), batches, pflag, probes, delim)
    {
      out, exited := "", false;
      var b := 0;
      while b < |batches| && !exited
        invariant b <= |batches|
        invariant exited <==> b > 0 && batches[b - 1] == []
        invariant !exited ==> [] !in batches[..b]
        invariant exited ==> out == RunOutput(State(), batches, pflag, probes, delim)
        invariant !exited ==>
          RunOutput(State(), batches, pflag, probes, delim)
            == out + RunOutput(State(), batches[b..], pflag, probes[b..], delim)
      {
        var text, fatal := ProcessBatch(batches[b], pflag, probes[b], delim);
        assert batches[b..][0] == batches[b] && batches[b..][1..] == batches[b + 1..];
        assert probes[b..][0] == probes[b] && probes[b..][1..] == probes[b + 1..];
        assert batches[..b + 1] == batches[..b] + [batches[b]];
        if !fatal {
          AppendRegroup(out, text, RunOutput(State(), batches[b + 1..], pflag, probes[b + 1..], delim));
        }
        out := out + text;
        exited := fatal;
        b := b + 1;
      }
      if !exited {
        assert batches[..b] == batches;
      }
    }
  }

  /** The watch target of a C-string path is a non-empty C string. */
  lemma WatchTargetIsCString(file: string, isDir: bool)
    requires IsCString(file) && (isDir ==> file != "")
    ensures var dir := WatchTarget(file, isDir); dir != "" && IsCString(dir)
  {
    var dir := WatchTarget(file, isDir);
    if dir != "." && dir != "/" {
      forall i | 0 <= i < |dir| ensures dir[i] != Nul {
        assert dir[i] == file[i] && file[i] in file;
      }
    }
  }

  /** `add` keeps every mapped directory the target of some watched path. */
  lemma AddKeepsConsistent(t: Tables, file: string, isDir: bool, wd: int)
    requires Consistent(t)
    requires IsCString(file) && (isDir ==> file != "")
    ensures Consistent(AddWatch(t, file, isDir, wd))
  {
    var t' := AddWatch(t, file, isDir, wd);
    WatchTargetIsCString(file, isDir);
    forall w | w in t'.wds
      ensures exists f | f in t'.root :: t'.wds[w] == f || t'.wds[w] == Dirname(f)
    {
      if w in t.wds {
        var f :| f in t.root && (t.wds[w] == f || t.wds[w] == Dirname(f));
        assert f in t'.root;
      } else {
        assert file in t'.root;
      }
    }
  }

  /**
   * Adding a path that is already watched, when the kernel hands back a
   * descriptor the map already holds (it coalesces watches on one
   * directory) or fails, changes nothing: one watch-set entry, one map entry.
   */
  lemma AddAgainChangesNothing(t: Tables, file: string, isDir: bool, wd: int)
    requires file in t.root
    requires wd < 0 || wd in t.wds
    ensures AddWatch(t, file, isDir, wd) == t
  {
  }

  /** Without pipe mode the output of two batches read as one is the two outputs joined. */
  lemma {:induction false} EmitAppend(t: Tables, a: seq<Event>, b: seq<Event>, delim: char)
    ensures Emit(t, a + b, false, [], delim) == Emit(t, a, false, [], delim) + Emit(t, b, false, [], delim)
  {
    if a == [] {
      assert a + b == b;
    } else {
      assert (a + b)[0] == a[0] && (a + b)[1..] == a[1..] + b;
      EmitAppend(t, a[1..], b, delim);
    }
  }

  /** One event gives its record exactly when it matches, and nothing otherwise. */
  lemma EmitOne(t: Tables, ev: Event, delim: char)
    ensures Emit(t, [ev], false, [], delim) == if Matches(t, ev) then EventRecord(t, ev, delim) else ""
  {
    assert [ev][1..] == [];
  }

  /**
   * Pipe mode prints the full output of a prefix of the batch: it stops at
   * an event boundary and drops the rest. With no FIONREAD value above zero
   * the prefix is the whole batch.
   */
  lemma {:induction false} PipeCut(t: Tables, batch: seq<Event>, probes: seq<int>, delim: char) returns (k: nat)
    requires ProbesCover(batch, true, probes)
    ensures k <= |batch|
    ensures Emit(t, batch, true, probes, delim) == Emit(t, batch[..k], false, [], delim)
    ensures (forall j | 0 <= j < |probes| :: probes[j] <= 0) ==> k == |batch|
  {
    if batch == [] {
      k := 0;
    } else if Matches(t, batch[0]) && probes[0] > 0 {
      k := 0;
    } else {
      var rest := if Matches(t, batch[0]) then probes[1..] else probes;
      var k' := PipeCut(t, batch[1..], rest, delim);
      k := k' + 1;
      EmitPrefix(t, batch, k, delim);
      assert batch[1..][..k'] == batch[..k][1..];
      NonPositiveTail(probes);
    }
  }

  /** Without pipe mode, a non-empty prefix of a batch prints its first event's record, if any, then the rest. */
  lemma EmitPrefix(t: Tables, batch: seq<Event>, n: nat, delim: char)
    requires 0 < n <= |batch|
    ensures Emit(t, batch[..n], false, [], delim)
         == (if Matches(t, batch[0]) then EventRecord(t, batch[0], delim) else "")
          + Emit(t, batch[..n][1..], false, [], delim)
  {
    assert batch[..n][0] == batch[0];
  }

  /** FIONREAD values none of which is positive stay so after the first is used. */
  lemma NonPositiveTail(probes: seq<int>)
    requires probes != []
    ensures (forall j | 0 <= j < |probes| :: probes[j] <= 0) ==>
              forall j | 0 <= j < |probes[1..]| :: probes[1..][j] <= 0
  {
    forall j | 0 <= j < |probes[1..]| ensures probes[1..][j] == probes[j + 1] { }
  }

  /** The output of a batch in pipe mode is a prefix of its output without pipe mode. */
  lemma PipeOutputIsPrefix(t: Tables, batch: seq<Event>, probes: seq<int>, delim: char)
    requires ProbesCover(batch, true, probes)
    ensures Emit(t, batch, true, probes, delim) <= Emit(t, batch, false, [], delim)
  {
    var k := PipeCut(t, batch, probes, delim);
    assert batch == batch[..k] + batch[k..];
    EmitAppend(t, batch[..k], batch[k..], delim);
  }

  /**
   * A watched directory reports every child event under "dir/name"; for
   * the directory "." the record carries the bare name, never "./name".
   */
  lemma DirectoryChildReported(t: Tables, ev: Event, delim: char)
    requires ev.wd in t.wds && t.wds[ev.wd] in t.root
    requires !IsIgnored(ev)
    ensures Emit(t, [ev], false, [], delim)
         == Record(IsDeletion(ev), Candidate(t.wds[ev.wd], ev.name), delim)
    ensures t.wds[ev.wd] == "." ==>
      Emit(t, [ev], false, [], delim) == Record(IsDeletion(ev), ev.name, delim)
  {
    EmitOne(t, ev, delim);
  }

  /**
   * The "- " prefix follows IN_DELETE alone: a deletion record is the change
   * record behind "- ", and an IN_DELETE_SELF record has no prefix.
   */
  lemma DeletionPrefix(t: Tables, ev: Event, delim: char)
    requires ev.wd in t.wds
    ensures var path := Candidate(t.wds[ev.wd], ev.name);
      EventRecord(t, ev, delim) == if ev.mask & IN_DELETE != 0 then "- " + path + [delim] else path + [delim]
    ensures ev.mask == IN_DELETE_SELF ==> EventRecord(t, ev, delim) == Candidate(t.wds[ev.wd], ev.name) + [delim]
  {
  }

  /**
   * When only one file "dir/f" of a directory is watched (not the directory),
   * an event for any other child of that directory is not reported.
   */
  lemma SiblingNotReported(t: Tables, f: string, ev: Event, delim: char)
    requires ev.wd in t.wds
    requires t.root == {Candidate(t.wds[ev.wd], f)}
    requires t.wds[ev.wd] != Candidate(t.wds[ev.wd], f)
    requires ev.name != f
    ensures Emit(t, [ev], false, [], delim) == ""
  {
    EmitOne(t, ev, delim);
    if Candidate(t.wds[ev.wd], ev.name) == Candidate(t.wds[ev.wd], f) {
      CandidateInjective(t.wds[ev.wd], ev.name, f);
    }
  }

  /**
   * A file registered as "dir/name" (dir as dirname() writes it, or "." for
   * a bare name) is watched through its directory, and a change to that
   * child is reported under the path as registered.
   */
  lemma RegisteredFileIsReported(t: Tables, dir: string, name: string, wd: int, mask: bv32, len: nat, delim: char)
    requires CanonicalDir(dir) && PlainName(name)
    requires wd >= 0 && (wd in t.wds ==> t.wds[wd] == dir)
    requires mask & IN_IGNORED == 0
    ensures var t' := AddWatch(t, Candidate(dir, name), false, wd);
      Emit(t', [Event(wd, mask, len, name)], false, [], delim)
        == Record(mask & IN_DELETE != 0, Candidate(dir, name), delim)
  {
    DirnameOfCandidate(dir, name);
    var t' := AddWatch(t, Candidate(dir, name), false, wd);
    EmitOne(t', Event(wd, mask, len, name), delim);
  }

  /**
   * A file directly under "/" registered as "/name" is never reported: the
   * watch is on "/" and every candidate built from it starts with "//".
   */
  lemma RootLevelFileNeverReported(name: string, wd: int)
    requires PlainName(name) && wd >= 0
    ensures var t := AddWatch(Tables({}, map[]), "/" + name, false, wd);
      t.wds == map[wd := "/"] && forall ev: Event :: !Matches(t, ev)
  {
    DirnameOfJoin("", name);
    assert "" + "/" + name == "/" + name;
    var t := AddWatch(Tables({}, map[]), "/" + name, false, wd);
    forall ev: Event | ev.wd in t.wds
      ensures Candidate(t.wds[ev.wd], ev.name) != "/" + name
    {
      var c := Candidate(t.wds[ev.wd], ev.name);
      if |c| == |"/" + name| {
        assert c[1] == '/';
        assert ("/" + name)[1] == name[0] != '/';
      }
    }
  }

  /**
   * A file registered as "./name" is never reported: the watch is on ".",
   * whose candidates are bare names, and neither "." nor a bare name is
   * the registered string.
   */
  lemma DotSlashFileNeverReported(name: string, wd: int)
    requires PlainName(name) && wd >= 0
    ensures var t := AddWatch(Tables({}, map[]), "./" + name, false, wd);
      t.wds == map[wd := "."] && forall ev: Event | PlainName(ev.name) :: !Matches(t, ev)
  {
    DirnameOfJoin(".", name);
    assert "." + "/" + name == "./" + name;
    assert DropTrailingSlashes(".") == ".";
  }

  /**
   * `run` tests the mapped directory, not the dirname of the candidate; for a
   * directory as dirname() writes it and a plain child name the two agree.
   */
  lemma MatchIsDirnameRule(t: Tables, ev: Event)
    requires ev.wd in t.wds && CanonicalDir(t.wds[ev.wd]) && PlainName(ev.name)
    ensures var c := Candidate(t.wds[ev.wd], ev.name);
      Matches(t, ev) <==> !IsIgnored(ev) && (c in t.root || Dirname(c) in t.root)
  {
    DirnameOfCandidate(t.wds[ev.wd], ev.name);
  }

  /**
   * Each batch starts afresh: the output of a run is the output of its first
   * batches followed by that of the rest, so events dropped by pipe mode in
   * one batch do not affect later ones.
   */
  lemma {:induction false} RunAppend(t: Tables, a: seq<seq<Event>>, pa: seq<seq<int>>,
                                     b: seq<seq<Event>>, pb: seq<seq<int>>, pflag: bool, delim: char)
    requires |pa| == |a| && |pb| == |b| && [] !in a
    requires forall i | 0 <= i < |a| :: ProbesCover(a[i], pflag, pa[i])
    requires forall i | 0 <= i < |b| :: ProbesCover(b[i], pflag, pb[i])
    ensures forall i | 0 <= i < |a + b| :: ProbesCover((a + b)[i], pflag, (pa + pb)[i])
    ensures RunOutput(t, a + b, pflag, pa + pb, delim)
         == RunOutput(t, a, pflag, pa, delim) + RunOutput(t, b, pflag, pb, delim)
  {
    assert forall i | 0 <= i < |a + b| :: ProbesCover((a + b)[i], pflag, (pa + pb)[i]) by {
      forall i | 0 <= i < |a + b| ensures ProbesCover((a + b)[i], pflag, (pa + pb)[i]) {
        if i < |a| { assert (a + b)[i] == a[i] && (pa + pb)[i] == pa[i]; }
        else { assert (a + b)[i] == b[i - |a|] && (pa + pb)[i] == pb[i - |a|]; }
      }
    }
    if a == [] {
      assert a + b == b && pa + pb == pb;
    } else {
      assert (a + b)[0] == a[0] && (a + b)[1..] == a[1..] + b;
      assert (pa + pb)[0] == pa[0] && (pa + pb)[1..] == pa[1..] + pb;
      assert a[0] in a;
      assert forall i | 0 <= i < |a[1..]| :: a[1..][i] == a[i + 1] && pa[1..][i] == pa[i + 1];
      RunAppend(t, a[1..], pa[1..], b, pb, pflag, delim);
      var first := Emit(t, a[0], pflag, pa[0], delim);
      assert RunOutput(t, a + b, pflag, pa + pb, delim)
          == first + RunOutput(t, a[1..] + b, pflag, pa[1..] + pb, delim);
      AppendRegroup(first, RunOutput(t, a[1..], pflag, pa[1..], delim), RunOutput(t, b, pflag, pb, delim));
    }
  }

  /** The record texts one batch prints, in order: what `Emit` writes, before each delimiter. */
  function Printed(t: Tables, batch: seq<Event>, pflag: bool, probes: seq<int>): (texts: seq<string>)
    requires ProbesCover(batch, pflag, probes)
    ensures |texts| <= |batch|
    decreases |batch|
  {
    if batch == [] then []
    else if !Matches(t, batch[0]) then Printed(t, batch[1..], pflag, probes)
    else if pflag && probes[0] > 0 then []
    else [EventText(t, batch[0])] + Printed(t, batch[1..], pflag, if pflag then probes[1..] else probes)
  }

  /** The output of a batch is its record texts, each followed by the delimiter. */
  lemma {:induction false} EmitIsTerminated(t: Tables, batch: seq<Event>, pflag: bool, probes: seq<int>, delim: char)
    requires ProbesCover(batch, pflag, probes)
    ensures Emit(t, batch, pflag, probes, delim) == Terminated(Printed(t, batch, pflag, probes), delim)
  {
    if batch != [] {
      if !Matches(t, batch[0]) {
        EmitIsTerminated(t, batch[1..], pflag, probes, delim);
      } else if !(pflag && probes[0] > 0) {
        var probes' := if pflag then probes[1..] else probes;
        EmitIsTerminated(t, batch[1..], pflag, probes', delim);
        var texts := Printed(t, batch, pflag, probes);
        assert texts[0] == EventText(t, batch[0]);
        assert texts[1..] == Printed(t, batch[1..], pflag, probes');
      }
    }
  }

  /** With C-string tables and names, every record text a batch prints is a C string. */
  lemma {:induction false} PrintedCStrings(t: Tables, batch: seq<Event>, pflag: bool, probes: seq<int>)
    requires Consistent(t) && ProbesCover(batch, pflag, probes)
    requires forall ev | ev in batch :: IsCString(ev.name)
    ensures forall x | x in Printed(t, batch, pflag, probes) :: IsCString(x)
  {
    if batch != [] {
      assert forall ev | ev in batch[1..] :: ev in batch;
      if !Matches(t, batch[0]) {
        PrintedCStrings(t, batch[1..], pflag, probes);
      } else if !(pflag && probes[0] > 0) {
        var ev := batch[0];
        PrintedCStrings(t, batch[1..], pflag, if pflag then probes[1..] else probes);
        CandidateAvoids(t.wds[ev.wd], ev.name, Nul);
        RecordLayout(IsDeletion(ev), Candidate(t.wds[ev.wd], ev.name), Nul);
      }
    }
  }

  /**
   * Under `-0` the output of a batch cuts at its NULs into exactly the
   * record texts printed: no NUL falls inside a record, because every
   * registered path and every event name is a C string.
   */
  lemma NulOutputSplitsIntoRecords(t: Tables, batch: seq<Event>, pflag: bool, probes: seq<int>)
    requires Consistent(t) && ProbesCover(batch, pflag, probes)
    requires forall ev | ev in batch :: IsCString(ev.name)
    ensures SplitNul(Emit(t, batch, pflag, probes, Nul)) == Printed(t, batch, pflag, probes)
  {
    EmitIsTerminated(t, batch, pflag, probes, Nul);
    PrintedCStrings(t, batch, pflag, probes);
    var texts := Printed(t, batch, pflag, probes);
    assert forall i | 0 <= i < |texts| :: texts[i] in texts;
    SplitNulTerminated(texts);
  }

  /**
   * Whatever has been registered, no reported event prints the path "./m"
   * or "/m" for a plain name m: the candidate for "." is the bare name, and
   * every mapped directory is non-empty.
   */
  lemma ReportedPathNeverDotSlashOrRootLevel(t: Tables, ev: Event, m: string)
    requires Consistent(t) && Matches(t, ev)
    requires '/' !in ev.name && PlainName(m)
    ensures Candidate(t.wds[ev.wd], ev.name) != "./" + m
    ensures Candidate(t.wds[ev.wd], ev.name) != "/" + m
  {
    CandidateNeverDotSlash(t.wds[ev.wd], ev.name, m);
    CandidateNeverRootLevel(t.wds[ev.wd], ev.name, m);
  }
}

=== FILE: kqueue.dfy ===
/**
 * rwc on the BSDs and macOS: one kqueue vnode filter per watched path,
 * carrying the path as user data, and an event loop that prints that path
 * for every event without filtering.
 *
 * The kernel is replaced by inputs: the descriptor open() returned, whether
 * kevent() accepted the filter, the events of each kevent() wait and the
 * values FIONREAD reported on stdout in pipe mode.
 */
module Kqueue {
  import opened Records

  const EV_ERROR: bv16 := 0x4000
  const NOTE_DELETE: bv32 := 0x1
  const NOTE_WRITE: bv32 := 0x2
  const NOTE_ATTRIB: bv32 := 0x8
  const NOTE_RENAME: bv32 := 0x20

  /** The fflags of every filter `add` submits; NOTE_DELETE only under -d. */
  function FilterFlags(detectDeletes: bool): (fflags: bv32)
    ensures fflags & NOTE_WRITE != 0 && fflags & NOTE_ATTRIB != 0 && fflags & NOTE_RENAME != 0
    ensures fflags & NOTE_DELETE != 0 <==> detectDeletes
  {
    NOTE_WRITE | NOTE_ATTRIB | NOTE_RENAME | (if detectDeletes then NOTE_DELETE else 0)
  }

  /** The event reports an error instead of a change. */
  predicate IsError(ev: KEvent)
  {
    ev.flags & EV_ERROR != 0
  }

  /** The event reports a deletion: a record with the "- " prefix. */
  predicate IsDeletion(ev: KEvent)
  {
    ev.fflags & NOTE_DELETE != 0
  }

  /** A vnode filter the kernel accepted: its fflags and the path attached as udata. */
  datatype Filter = Filter(fflags: bv32, udata: string)

  /** The fields of a returned kevent that `run` reads. */
  datatype KEvent = KEvent(flags: bv16, fflags: bv32, udata: string)

  /** The watch set `root` and the filters registered so far, by descriptor. */
  datatype Registry = Registry(root: set<string>, filters: map<int, Filter>)

  /** How one `add` ended. */
  datatype AddOutcome =
    | AlreadyWatched   // found in the watch set: nothing opened
    | OpenFailed       // open() failed: warned, nothing recorded
    | KeventFailed     // opened but kevent() refused the filter: warned, path still recorded
    | Registered       // opened and filter accepted

  /**
   * `add(file)` on a registry: an already watched path returns at once;
   * otherwise `fd` is what open() returned and `keventOk` whether kevent()
   * accepted the filter. A path that opened joins the watch set even when
   * kevent() fails.
   */
  function AddFile(r: Registry, file: string, fd: int, keventOk: bool, detectDeletes: bool): (res: (Registry, AddOutcome))
    ensures res.1 == AlreadyWatched <==> file in r.root
    ensures res.1 == Registered <==> file !in r.root && fd >= 0 && keventOk
    ensures res.0.root == if file !in r.root && fd >= 0 then r.root + {file} else r.root
    ensures res.0.filters == if res.1 == Registered then r.filters[fd := Filter(FilterFlags(detectDeletes), file)] else r.filters
  {
    if file in r.root then (r, AlreadyWatched)
    else if fd < 0 then (r, OpenFailed)
    else if !keventOk then (Registry(r.root + {file}, r.filters), KeventFailed)
    else (Registry(r.root + {file}, r.filters[fd := Filter(FilterFlags(detectDeletes), file)]), Registered)
  }

  /** Every watched path is a C string, and every accepted filter carries one as its udata. */
  ghost predicate Consistent(r: Registry)
  {
    (forall f | f in r.root :: IsCString(f)) &&
    forall fd | fd in r.filters :: r.filters[fd].udata in r.root
  }

  /** What one batch wrote, and whether an EV_ERROR ended the process (exit status 111). */
  datatype Emitted = Emitted(text: string, fatal: bool)

  /**
   * The output of one batch: every event in order gives the record of its
   * udata path, "- " when NOTE_DELETE fired; EV_ERROR stops with a fatal
   * result; in pipe mode each event first takes the next FIONREAD value and,
   * if it is positive, the rest of the batch is dropped.
   */
  function Emit(batch: seq<KEvent>, pflag: bool, probes: seq<int>, delim: char): (e: Emitted)
    requires pflag ==> |probes| >= |batch|
  {
    if batch == [] then Emitted("", false)
    else if IsError(batch[0]) then Emitted("", true)
    else if pflag && probes[0] > 0 then Emitted("", false)
    else
      var rest := Emit(batch[1..], pflag, if pflag then probes[1..] else probes, delim);
      Emitted(Record(IsDeletion(batch[0]), batch[0].udata, delim) + rest.text, rest.fatal)
  }

  /** The FIONREAD values still to come after i events: pipe mode takes one per event. */
  function Unused(probes: seq<int>, pflag: bool, i: nat): (rest: seq<int>)
    requires pflag ==> i <= |probes|
    ensures pflag ==> |rest| == |probes| - i
  {
    if pflag then probes[i..] else probes
  }

  /** An event with EV_ERROR ends the batch fatally. */
  lemma EmitError(batch: seq<KEvent>, pflag: bool, probes: seq<int>, i: nat, delim: char)
    requires i < |batch| && (pflag ==> |probes| >= |batch|)
    requires IsError(batch[i])
    ensures Emit(batch[i..], pflag, Unused(probes, pflag, i), delim) == Emitted("", true)
  {
    assert batch[i..][0] == batch[i];
  }

  /** In pipe mode a positive FIONREAD value ends the batch, not fatally. */
  lemma EmitStop(batch: seq<KEvent>, probes: seq<int>, i: nat, delim: char)
    requires i < |batch| && |probes| >= |batch|
    requires !IsError(batch[i]) && probes[i] > 0
    ensures Emit(batch[i..], true, Unused(probes, true, i), delim) == Emitted("", false)
  {
    assert batch[i..][0] == batch[i];
    assert probes[i..][0] == probes[i];
  }

  /** Otherwise the event's record comes before the output of the rest. */
  lemma EmitPrint(batch: seq<KEvent>, pflag: bool, probes: seq<int>, i: nat, delim: char)
    requires i < |batch| && (pflag ==> |probes| >= |batch|)
    requires !IsError(batch[i]) && (pflag ==> probes[i] <= 0)
    ensures var e := Emit(batch[i..], pflag, Unused(probes, pflag, i), delim);
      var rest := Emit(batch[i + 1..], pflag, Unused(probes, pflag, i + 1), delim);
      e.text == Record(IsDeletion(batch[i]), batch[i].udata, delim) + rest.text && e.fatal == rest.fatal
  {
    assert batch[i..][0] == batch[i] && batch[i..][1..] == batch[i + 1..];
    if pflag {
      assert probes[i..][0] == probes[i] && probes[i..][1..] == probes[i + 1..];
    }
  }

  /** True when some event of the batch carries EV_ERROR. */
  predicate HasError(batch: seq<KEvent>)
  {
    exists i | 0 <= i < |batch| :: IsError(batch[i])
  }

  /** The output of a run: batch after batch until an EV_ERROR ends it. */
  function RunOutput(batches: seq<seq<KEvent>>, pflag: bool, probes: seq<seq<int>>, delim: char): (out: Emitted)
    requires |probes| == |batches|
    requires forall i | 0 <= i < |batches| :: pflag ==> |probes[i]| >= |batches[i]|
  {
    if batches == [] then Emitted("", false)
    else
      var first := Emit(batches[0], pflag, probes[0], delim);
      if first.fatal then first
      else
        var rest := RunOutput(batches[1..], pflag, probes[1..], delim);
        Emitted(first.text + rest.text, rest.fatal)
  }

  /** The global state of rwc with kqueue: the watch set and the filters it registered. */
  class Watcher {
    var root: set<string>
    var filters: map<int, Filter>

    function State(): Registry
      reads this
    {
      Registry(root, filters)
    }

    constructor ()
      ensures root == {} && filters == map[]
      ensures Consistent(State())
    {
      root, filters := {}, map[];
    }

    /**
     * `add(file)`: look the path up first and stop if it is watched; else
     * open it (`fd` is open()'s result), submit a vnode filter with the path
     * as udata (`keventOk` is kevent()'s verdict) and record the path. The
     * path is a C string.
     */
    method Add(file: string, fd: int, keventOk: bool, detectDeletes: bool) returns (outcome: AddOutcome)
      requires IsCString(file)
      requires Consistent(State())
      modifies this
      ensures Consistent(State())
      ensures (State(), outcome) == AddFile(old(State()), file, fd, keventOk, detectDeletes)
      ensures outcome == AlreadyWatched <==> file in old(root)
      ensures outcome == OpenFailed || outcome == AlreadyWatched ==> root == old(root) && filters == old(filters)
      ensures outcome == KeventFailed || outcome == Registered ==> root == old(root) + {file}
    {
      if file in root {
        return AlreadyWatched;
      }
      if fd < 0 {
        return OpenFailed;
      }
      if keventOk {
        filters := filters[fd := Filter(FilterFlags(detectDeletes), file)];
        outcome := Registered;
      } else {
        outcome := KeventFailed;
      }
      root := root + {file};
    }

    /** One pass of `run`'s loop over the events one kevent() wait returned. */
    method ProcessBatch(batch: seq<KEvent>, pflag: bool, probes: seq<int>, delim: char) returns (out: string, fatal: bool)
      requires pflag ==> |probes| >= |batch|
      ensures Emitted(out, fatal) == Emit(batch, pflag, probes, delim)
    {
      out, fatal := "", false;
      ghost var total := Emit(batch, pflag, probes, delim);
      var i := 0;
      while i < |batch|
        invariant i <= |batch|
        invariant total.text == out + Emit(batch[i..], pflag, Unused(probes, pflag, i), delim).text
        invariant total.fatal == Emit(batch[i..], pflag, Unused(probes, pflag, i), delim).fatal
      {
        var ev := batch[i];
        if IsError(ev) {
          EmitError(batch, pflag, probes, i, delim);
          return out, true;
        }
        if pflag && probes[i] > 0 {
          EmitStop(batch, probes, i, delim);
          break;
        }
        EmitPrint(batch, pflag, probes, i, delim);
        ghost var rest := Emit(batch[i + 1..], pflag, Unused(probes, pflag, i + 1), delim);
        var record := Record(IsDeletion(ev), ev.udata, delim);
        AppendRegroup(out, record, rest.text);
        out := out + record;
        i := i + 1;
      }
    }

    /** `run`: batch after batch until an EV_ERROR makes rwc exit with status 111. */
    method Run(batches: seq<seq<KEvent>>, pflag: bool, probes: seq<seq<int>>, delim: char)
        returns (out: string, exited: bool)
      requires |probes| == |batches|
      requires forall i | 0 <= i < |batches| :: pflag ==> |probes[i]| >= |batches[i]|
      ensures Emitted(out, exited) == RunOutput(batches, pflag, probes, delim)
    {
      out, exited := "", false;
      ghost var total := RunOutput(batches, pflag, probes, delim);
      var b := 0;
      while b < |batches| && !exited
        invariant b <= |batches|
        invariant exited ==> Emitted(out, exited) == total
        invariant !exited ==>
          total == (var rest := RunOutput(batches[b..], pflag, probes[b..], delim);
                    Emitted(out + rest.text, rest.fatal))
      {
        RunStep(batches, pflag, probes, b, delim);
        var text, fatal := ProcessBatch(batches[b], pflag, probes[b], delim);
        ghost var rest := RunOutput(batches[b + 1..], pflag, probes[b + 1..], delim);
        AppendRegroup(out, text, rest.text);
        out := out + text;
        exited := fatal;
        b := b + 1;
      }
    }
  }

  /** The run from batch b on: batch b's output, then, unless it was fatal, the run from b + 1 on. */
  lemma RunStep(batches: seq<seq<KEvent>>, pflag: bool, probes: seq<seq<int>>, b: nat, delim: char)
    requires b < |batches| && |probes| == |batches|
    requires forall i | 0 <= i < |batches| :: pflag ==> |probes[i]| >= |batches[i]|
    ensures var first := Emit(batches[b], pflag, probes[b], delim);
      var rest := RunOutput(batches[b + 1..], pflag, probes[b + 1..], delim);
      RunOutput(batches[b..], pflag, probes[b..], delim)
        == if first.fatal then first else Emitted(first.text + rest.text, rest.fatal)
  {
    assert batches[b..][0] == batches[b] && batches[b..][1..] == batches[b + 1..];
    assert probes[b..][0] == probes[b] && probes[b..][1..] == probes[b + 1..];
  }

  /** `add` keeps every filter's udata a watched path. */
  lemma AddKeepsConsistent(r: Registry, file: string, fd: int, keventOk: bool, detectDeletes: bool)
    requires Consistent(r) && IsCString(file)
    ensures Consistent(AddFile(r, file, fd, keventOk, detectDeletes).0)
  {
  }

  /**
   * A path is opened at most once: after an `add` that opened it, adding it
   * again finds it in the watch set and changes nothing.
   */
  lemma AddTwiceOpensOnce(r: Registry, file: string, fd: int, keventOk: bool, fd': int, keventOk': bool, detectDeletes: bool)
    requires AddFile(r, file, fd, keventOk, detectDeletes).1 != OpenFailed
    ensures var r' := AddFile(r, file, fd, keventOk, detectDeletes).0;
      AddFile(r', file, fd', keventOk', detectDeletes) == (r', AlreadyWatched)
  {
  }

  /** There is no filtering: an event without EV_ERROR always prints the record of its udata. */
  lemma EmitOne(ev: KEvent, delim: char)
    requires !IsError(ev)
    ensures Emit([ev], false, [], delim) == Emitted(Record(IsDeletion(ev), ev.udata, delim), false)
  {
  }

  /** Without pipe mode, events before any EV_ERROR print independently of what follows them. */
  lemma {:induction false} EmitAppend(a: seq<KEvent>, b: seq<KEvent>, delim: char)
    requires !HasError(a)
    ensures var ea, eb := Emit(a, false, [], delim), Emit(b, false, [], delim);
      Emit(a + b, false, [], delim) == Emitted(ea.text + eb.text, eb.fatal)
  {
    if a == [] {
      assert a + b == b;
    } else {
      assert (a + b)[0] == a[0] && (a + b)[1..] == a[1..] + b;
      assert !HasError(a[1..]) by {
        forall i | 0 <= i < |a[1..]| ensures !IsError(a[1..][i]) {
          assert a[1..][i] == a[i + 1];
        }
      }
      EmitAppend(a[1..], b, delim);
      AppendRegroup(Record(IsDeletion(a[0]), a[0].udata, delim),
                    Emit(a[1..], false, [], delim).text, Emit(b, false, [], delim).text);
    }
  }

  /** Without pipe mode a batch is fatal exactly when one of its events carries EV_ERROR. */
  lemma {:induction false} FatalIffError(batch: seq<KEvent>, delim: char)
    ensures Emit(batch, false, [], delim).fatal <==> HasError(batch)
  {
    if batch != [] {
      if !IsError(batch[0]) {
        assert Emit(batch, false, [], delim).fatal == Emit(batch[1..], false, [], delim).fatal;
        FatalIffError(batch[1..], delim);
        if HasError(batch) {
          var i :| 0 <= i < |batch| && IsError(batch[i]);
          assert batch[1..][i - 1] == batch[i];
        }
        if HasError(batch[1..]) {
          var i :| 0 <= i < |batch[1..]| && IsError(batch[1..][i]);
          assert batch[i + 1] == batch[1..][i];
        }
      }
    }
  }

  /**
   * Pipe mode prints a prefix of what the batch prints without it, is fatal
   * only when the full batch would be, and prints all of it when no
   * FIONREAD value is positive.
   */
  lemma {:induction false} PipeOutputIsPrefix(batch: seq<KEvent>, probes: seq<int>, delim: char)
    requires |probes| >= |batch|
    ensures var p, f := Emit(batch, true, probes, delim), Emit(batch, false, [], delim);
      p.text <= f.text && (p.fatal ==> f.fatal) &&
      ((forall j | 0 <= j < |probes| :: probes[j] <= 0) ==> p == f)
  {
    if batch != [] && !IsError(batch[0]) {
      PipeOutputIsPrefix(batch[1..], probes[1..], delim);
      var record := Record(IsDeletion(batch[0]), batch[0].udata, delim);
      var p', f' := Emit(batch[1..], true, probes[1..], delim), Emit(batch[1..], false, [], delim);
      assert Emit(batch, false, [], delim) == Emitted(record + f'.text, f'.fatal);
      if probes[0] <= 0 {
        assert Emit(batch, true, probes, delim) == Emitted(record + p'.text, p'.fatal);
        PrefixBehindRecord(record, p'.text, f'.text);
      }
      assert (forall j | 0 <= j < |probes| :: probes[j] <= 0) ==>
               forall j | 0 <= j < |probes[1..]| :: probes[1..][j] <= 0 by {
        forall j | 0 <= j < |probes[1..]| ensures probes[1..][j] == probes[j + 1] { }
      }
    }
  }

  /**
   * Each batch starts afresh: the output of a run is that of its first,
   * non-fatal batches followed by that of the rest.
   */
  lemma {:induction false} RunAppend(a: seq<seq<KEvent>>, pa: seq<seq<int>>,
                                     b: seq<seq<KEvent>>, pb: seq<seq<int>>, pflag: bool, delim: char)
    requires |pa| == |a| && |pb| == |b|
    requires forall i | 0 <= i < |a| :: pflag ==> |pa[i]| >= |a[i]|
    requires forall i | 0 <= i < |b| :: pflag ==> |pb[i]| >= |b[i]|
    requires forall i | 0 <= i < |a| :: !Emit(a[i], pflag, pa[i], delim).fatal
    ensures forall i | 0 <= i < |a + b| :: pflag ==> |(pa + pb)[i]| >= |(a + b)[i]|
    ensures var ra, rb := RunOutput(a, pflag, pa, delim), RunOutput(b, pflag, pb, delim);
      RunOutput(a + b, pflag, pa + pb, delim) == Emitted(ra.text + rb.text, rb.fatal)
  {
    assert forall i | 0 <= i < |a + b| :: pflag ==> |(pa + pb)[i]| >= |(a + b)[i]| by {
      forall i | 0 <= i < |a + b| ensures pflag ==> |(pa + pb)[i]| >= |(a + b)[i]| {
        if i < |a| { assert (a + b)[i] == a[i] && (pa + pb)[i] == pa[i]; }
        else { assert (a + b)[i] == b[i - |a|] && (pa + pb)[i] == pb[i - |a|]; }
      }
    }
    if a == [] {
      assert a + b == b && pa + pb == pb;
    } else {
      assert (a + b)[0] == a[0] && (a + b)[1..] == a[1..] + b;
      assert (pa + pb)[0] == pa[0] && (pa + pb)[1..] == pa[1..] + pb;
      assert forall i | 0 <= i < |a[1..]| :: a[1..][i] == a[i + 1] && pa[1..][i] == pa[i + 1];
      RunAppend(a[1..], pa[1..], b, pb, pflag, delim);
      var first := Emit(a[0], pflag, pa[0], delim);
      var ra', rb := RunOutput(a[1..], pflag, pa[1..], delim), RunOutput(b, pflag, pb, delim);
      AppendRegroup(first.text, ra'.text, rb.text);
    }
  }

  /** The record texts one batch prints, in order: what `Emit` writes, before each delimiter. */
  function Printed(batch: seq<KEvent>, pflag: bool, probes: seq<int>): (texts: seq<string>)
    requires pflag ==> |probes| >= |batch|
    ensures |texts| <= |batch|
  {
    if batch == [] || IsError(batch[0]) || (pflag && probes[0] > 0) then []
    else [RecordText(IsDeletion(batch[0]), batch[0].udata)]
         + Printed(batch[1..], pflag, if pflag then probes[1..] else probes)
  }

  /** The text a batch writes is its record texts, each followed by the delimiter. */
  lemma {:induction false} EmitIsTerminated(batch: seq<KEvent>, pflag: bool, probes: seq<int>, delim: char)
    requires pflag ==> |probes| >= |batch|
    ensures Emit(batch, pflag, probes, delim).text == Terminated(Printed(batch, pflag, probes), delim)
  {
    if batch != [] && !IsError(batch[0]) && !(pflag && probes[0] > 0) {
      var probes' := if pflag then probes[1..] else probes;
      EmitIsTerminated(batch[1..], pflag, probes', delim);
      var texts := Printed(batch, pflag, probes);
      assert texts[0] == RecordText(IsDeletion(batch[0]), batch[0].udata);
      assert texts[1..] == Printed(batch[1..], pflag, probes');
    }
  }

  /** Events whose udata is a watched path print C-string record texts. */
  lemma {:induction false} PrintedCStrings(r: Registry, batch: seq<KEvent>, pflag: bool, probes: seq<int>)
    requires Consistent(r) && (pflag ==> |probes| >= |batch|)
    requires forall ev | ev in batch :: ev.udata in r.root
    ensures forall x | x in Printed(batch, pflag, probes) :: IsCString(x)
  {
    if batch != [] && !IsError(batch[0]) && !(pflag && probes[0] > 0) {
      assert forall ev | ev in batch[1..] :: ev in batch;
      PrintedCStrings(r, batch[1..], pflag, if pflag then probes[1..] else probes);
      RecordLayout(IsDeletion(batch[0]), batch[0].udata, Nul);
    }
  }

  /**
   * Under `-0` the text of a batch cuts at its NULs into exactly the record
   * texts printed, when every event carries the udata of a registered filter.
   */
  lemma NulOutputSplitsIntoRecords(r: Registry, batch: seq<KEvent>, pflag: bool, probes: seq<int>)
    requires Consistent(r) && (pflag ==> |probes| >= |batch|)
    requires forall ev | ev in batch :: ev.udata in r.root
    ensures SplitNul(Emit(batch, pflag, probes, Nul).text) == Printed(batch, pflag, probes)
  {
    EmitIsTerminated(batch, pflag, probes, Nul);
    PrintedCStrings(r, batch, pflag, probes);
    var texts := Printed(batch, pflag, probes);
    assert forall i | 0 <= i < |texts| :: texts[i] in texts;
    SplitNulTerminated(texts);
  }
}

=== FILE: order.dfy ===
/**
 * The two comparators rwc hands to tsearch/tfind.
 *
 * `order` compares watched paths with strcmp and `wdorder` compares the
 * watch descriptors of wd-to-directory entries. The model keeps the watch
 * set as a `set<string>` and the descriptor table as a `map<int, string>`;
 * the lemmas here show that this is sound: both comparators are strict total
 * orders whose "equal" verdict is exactly equality, so a search tree ordered
 * by them holds at most one node per key and finds a key iff it is present.
 */
module Order {

  /**
   * The sign of strcmp(a, b) for two C strings whose bytes are the characters
   * of a and b (a C string holds no NUL, so a proper prefix sorts first,
   * its terminator being the smallest byte).
   */
  function Strcmp(a: string, b: string): (r: int)
    ensures -1 <= r <= 1
    ensures r == 0 <==> a == b
    ensures r < 0 && a != [] ==> b != [] && a[0] <= b[0]
  {
    if a == [] && b == [] then 0
    else if a == [] then -1
    else if b == [] then 1
    else if a[0] < b[0] then -1
    else if a[0] > b[0] then 1
    else
      var r := Strcmp(a[1..], b[1..]);
      assert r == 0 ==> a == [a[0]] + a[1..] == [b[0]] + b[1..] == b;
      r
  }

  /** A proper prefix sorts first. */
  lemma {:induction false} StrcmpProperPrefix(a: string, b: string)
    requires a < b
    ensures Strcmp(a, b) < 0
  {
    if a != [] {
      assert a[1..] < b[1..];
      StrcmpProperPrefix(a[1..], b[1..]);
    }
  }

  /** At the first differing byte, the smaller byte sorts first. */
  lemma {:induction false} StrcmpFirstDifference(a: string, b: string, k: nat)
    requires k < |a| && k < |b| && a[..k] == b[..k] && a[k] != b[k]
    ensures Strcmp(a, b) < 0 <==> a[k] < b[k]
  {
    if k > 0 {
      assert a[0] == a[..k][0] == b[..k][0] == b[0];
      assert a[1..][..k - 1] == a[..k][1..] == b[..k][1..] == b[1..][..k - 1];
      StrcmpFirstDifference(a[1..], b[1..], k - 1);
    }
  }

  /** Swapping the arguments of strcmp flips the verdict. */
  lemma {:induction false} StrcmpAntisymmetric(a: string, b: string)
    ensures Strcmp(b, a) == -Strcmp(a, b)
  {
    if a != [] && b != [] && a[0] == b[0] {
      StrcmpAntisymmetric(a[1..], b[1..]);
    }
  }

  /** strcmp order is transitive, so with antisymmetry it is a strict total order. */
  lemma {:induction false} StrcmpTransitive(a: string, b: string, c: string)
    requires Strcmp(a, b) < 0 && Strcmp(b, c) < 0
    ensures Strcmp(a, c) < 0
  {
    if a != [] && a[0] == b[0] && b[0] == c[0] {
      StrcmpTransitive(a[1..], b[1..], c[1..]);
    }
  }

  /** `wdorder`: the three-way comparison of two watch descriptors. */
  function WdOrder(a: int, b: int): (r: int)
    ensures r == 0 <==> a == b
    ensures r < 0 <==> a < b
    ensures r > 0 <==> a > b
  {
    if a == b then 0 else if a < b then -1 else 1
  }
}

=== FILE: paths.dfy ===
/**
 * Path strings as rwc's `add` and inotify `run` build them: the POSIX
 * dirname(3) that picks a watch target, and the join of a watched directory
 * with the child name an inotify event carries.
 */
module Paths {

  /** True when every character of s is a slash (vacuously for ""). */
  predicate AllSlashes(s: string)
  {
    forall i | 0 <= i < |s| :: s[i] == '/'
  }

  /** s with its trailing slashes removed: the longest prefix not ending in '/'. */
  function DropTrailingSlashes(s: string): (r: string)
    ensures r <= s
    ensures r == [] || r[|r| - 1] != '/'
    ensures forall i | |r| <= i < |s| :: s[i] == '/'
  {
    if s != [] && s[|s| - 1] == '/' then DropTrailingSlashes(s[..|s| - 1]) else s
  }

  /** s with its last name removed: the longest prefix that is empty or ends in '/'. */
  function DropTrailingName(s: string): (r: string)
    ensures r <= s
    ensures r == [] || r[|r| - 1] == '/'
    ensures forall i | |r| <= i < |s| :: s[i] != '/'
  {
    if s != [] && s[|s| - 1] != '/' then DropTrailingName(s[..|s| - 1]) else s
  }

  /**
   * dirname() as POSIX.1-2017 (System Interfaces, dirname) defines it: ""
   * gives "."; a string of slashes gives "/"; otherwise trailing slashes are
   * dropped, a string without a slash gives ".", and the last name and the
   * slashes before it are dropped, leaving "/" if nothing remains. The two
   * steps POSIX leaves implementation-defined for a leading "//" are taken
   * as processed, so "//" and "//x" give "/".
   */
  function Dirname(path: string): (dir: string)
    ensures dir == "." || dir == "/" || (dir != [] && dir < path && dir[|dir| - 1] != '/')
    ensures path == [] ==> dir == "."
    ensures path != [] && AllSlashes(path) ==> dir == "/"
  {
    if path == [] then "."
    else if AllSlashes(path) then "/"
    else
      var s := DropTrailingSlashes(path);
      if '/' !in s then "."
      else
        var d := DropTrailingSlashes(DropTrailingName(s));
        if d == [] then "/" else d
  }

  /**
   * The path an inotify event names: the child name alone when the watched
   * directory is exactly ".", otherwise directory, slash, name.
   */
  function Candidate(dir: string, name: string): (path: string)
    ensures dir == "." ==> path == name
    ensures |name| <= |path| && path[|path| - |name|..] == name
    ensures dir != "." ==> |path| == |dir| + 1 + |name| && dir < path && path[|dir|] == '/'
  {
    if dir == "." then name else dir + "/" + name
  }

  /** A directory string as dirname() returns it: non-empty, no trailing slash unless it is "/". */
  predicate CanonicalDir(dir: string)
  {
    dir != [] && (dir == "/" || dir[|dir| - 1] != '/')
  }

  /** A single path component as a directory entry name is: non-empty, without a slash. */
  predicate PlainName(name: string)
  {
    name != [] && '/' !in name
  }

  /** A path without a slash, the empty path included, lies in ".". */
  lemma DirnameOfPlainName(name: string)
    requires '/' !in name
    ensures Dirname(name) == "."
  {
    if name != [] {
      assert !AllSlashes(name) by { assert name[0] in name; }
      assert DropTrailingSlashes(name) == name;
    }
  }

  /** Trailing slashes do not change the directory a path lies in. */
  lemma DirnameIgnoresTrailingSlash(path: string)
    requires !AllSlashes(path)
    ensures Dirname(path + "/") == Dirname(path)
  {
    var p := path + "/";
    assert p[..|p| - 1] == path;
    assert !AllSlashes(p) by {
      var i :| 0 <= i < |path| && path[i] != '/';
      assert p[i] == path[i];
    }
  }

  /**
   * The dirname of "d/name" for a plain name: d without its trailing
   * slashes, or "/" when nothing is left of d.
   */
  lemma DirnameOfJoin(d: string, name: string)
    requires PlainName(name)
    ensures var r := DropTrailingSlashes(d);
      Dirname(d + "/" + name) == if r == [] then "/" else r
  {
    var p := d + "/" + name;
    assert p[|p| - 1] == name[|name| - 1];
    assert p[|d|] == '/';
    assert !AllSlashes(p) by { assert p[|p| - 1] != '/'; }
    assert DropTrailingSlashes(p) == p;
    assert '/' in p;
    var n := DropTrailingName(p);
    assert n == p[..|d| + 1] == d + "/";
    assert (d + "/")[..|d|] == d;
    assert DropTrailingSlashes(n) == DropTrailingSlashes(d);
  }

  /**
   * Joining a directory with a child name and taking the dirname gives the
   * directory back: the candidate path of an event lies in the watched
   * directory whenever that directory is written as dirname() writes it.
   */
  lemma DirnameOfCandidate(dir: string, name: string)
    requires CanonicalDir(dir) && PlainName(name)
    ensures Dirname(Candidate(dir, name)) == dir
  {
    if dir == "." {
      DirnameOfPlainName(name);
    } else {
      DirnameOfJoin(dir, name);
      if dir == "/" {
        assert DropTrailingSlashes(dir) == DropTrailingSlashes([]) == [];
      }
    }
  }

  /** Different child names of one directory give different candidate paths. */
  lemma {:induction false} CandidateInjective(dir: string, a: string, b: string)
    requires Candidate(dir, a) == Candidate(dir, b)
    ensures a == b
  {
    if dir != "." {
      var k := |dir| + 1;
      assert a == (dir + "/" + a)[k..];
      assert b == (dir + "/" + b)[k..];
    }
  }

  /** A candidate holds no character other than '/' that its directory and name lack. */
  lemma CandidateAvoids(dir: string, name: string, c: char)
    requires c != '/' && c !in dir && c !in name
    ensures c !in Candidate(dir, name)
  {
  }

  /**
   * No candidate built from a child name without a slash reads "./m": for
   * "." the candidate is the bare name, and any other directory puts its
   * own slash elsewhere.
   */
  lemma CandidateNeverDotSlash(dir: string, name: string, m: string)
    requires '/' !in name && PlainName(m)
    ensures Candidate(dir, name) != "./" + m
  {
    var c, e := Candidate(dir, name), "./" + m;
    if |c| == |e| {
      if dir == "." {
        assert c[1] == name[1] && name[1] in name;
        assert c[1] != e[1];
      } else if |dir| >= 2 {
        assert e[|dir|] == m[|dir| - 2] && m[|dir| - 2] in m;
        assert c[|dir|] != e[|dir|];
      } else if |dir| == 1 {
        assert dir == [dir[0]];
        assert c[0] == dir[0] != e[0];
      } else {
        assert c[0] == '/' != e[0];
      }
    }
  }

  /**
   * No candidate built from a non-empty directory and a child name without
   * a slash reads "/m": its last slash sits right after the directory.
   */
  lemma CandidateNeverRootLevel(dir: string, name: string, m: string)
    requires dir != "" && '/' !in name && PlainName(m)
    ensures Candidate(dir, name) != "/" + m
  {
    var c, e := Candidate(dir, name), "/" + m;
    if |c| == |e| {
      if dir == "." {
        assert c[0] == name[0] && name[0] in name;
        assert c[0] != e[0];
      } else {
        assert e[|dir|] == m[|dir| - 1] && m[|dir| - 1] in m;
        assert c[|dir|] != e[|dir|];
      }
    }
  }
}

=== FILE: records.dfy ===
/**
 * The text rwc writes for a reported event and the path it reads back from
 * one input line: `[- ]path<delimiter>`, the delimiter being a newline, or
 * NUL under `-0` (which switches input and output alike).
 */
module Records {

  const Newline: char := '\n'
  const Nul: char := '\0'

  /** The delimiter byte: NUL under `-0`, a newline otherwise. */
  function Delimiter(nulMode: bool): (delim: char)
    ensures delim == Nul <==> nulMode
  {
    if nulMode then Nul else Newline
  }

  /** A C string: a byte sequence without the NUL that would end it. */
  predicate IsCString(s: string)
  {
    Nul !in s
  }

  /** The text of a record before its delimiter: "- " when the event is a deletion, then the path. */
  function RecordText(delete: bool, path: string): (text: string)
  {
    (if delete then "- " else "") + path
  }

  /** One output record: its text and the delimiter. */
  function Record(delete: bool, path: string, delim: char): (r: string)
  {
    RecordText(delete, path) + [delim]
  }

  /**
   * The layout of a record: the path sits right before the delimiter, behind
   * "- " exactly for a deletion; under `-0` a C-string path leaves the
   * closing NUL the record's only one.
   */
  lemma RecordLayout(delete: bool, path: string, delim: char)
    ensures var r := Record(delete, path, delim);
      |r| == |path| + (if delete then 3 else 1) && r[|r| - 1] == delim &&
      r[|r| - 1 - |path|..|r| - 1] == path &&
      (delete ==> r[..2] == "- ") &&
      (IsCString(path) ==> IsCString(r[..|r| - 1]) && IsCString(RecordText(delete, path)))
  {
    var text := RecordText(delete, path);
    assert Record(delete, path, delim)[..|text|] == text;
  }

  /** Texts written one after another, each followed by the delimiter. */
  function Terminated(texts: seq<string>, delim: char): (out: string)
    ensures out == [] <==> texts == []
    ensures out != [] ==> out[|out| - 1] == delim
  {
    if texts == [] then "" else texts[0] + [delim] + Terminated(texts[1..], delim)
  }

  /** The C string a byte buffer holds: its bytes up to the first NUL. */
  function CString(s: string): (r: string)
    ensures r <= s && IsCString(r)
    ensures |r| < |s| ==> s[|r|] == Nul
  {
    if s == [] || s[0] == Nul then [] else [s[0]] + CString(s[1..])
  }

  /** A line read by getdelim with its trailing delimiter, if it has one, removed. */
  function StripDelimiter(line: string, delim: char): (r: string)
    ensures line == r || line == r + [delim]
    ensures |line| > 0 && line[|line| - 1] == delim ==> |r| == |line| - 1
  {
    if |line| > 0 && line[|line| - 1] == delim then line[..|line| - 1] else line
  }

  /**
   * The path `add` receives for one input line: the delimiter is overwritten
   * with NUL, so the path is the C string the stripped line holds.
   */
  function InputPath(line: string, delim: char): (path: string)
    ensures IsCString(path) && path <= line
    ensures var s := StripDelimiter(line, delim); path <= s && (|path| < |s| ==> s[|path|] == Nul)
  {
    CString(StripDelimiter(line, delim))
  }

  /** Output appended record by record: regrouping the concatenation keeps the text. */
  lemma AppendRegroup(out: string, record: string, rest: string)
    ensures out + (record + rest) == (out + record) + rest
  {
  }

  /** Writing the same record before two outputs keeps one a prefix of the other. */
  lemma PrefixBehindRecord(record: string, shorter: string, longer: string)
    requires shorter <= longer
    ensures record + shorter <= record + longer
  {
    assert record + longer == record + shorter + longer[|shorter|..];
  }

  /** A deletion record is the change record for the same path behind "- ". */
  lemma DeleteRecordIsPrefixedChange(path: string, delim: char)
    ensures Record(true, path, delim) == "- " + Record(false, path, delim)
  {
  }

  /** Reading a C string back from a buffer that holds exactly it gives it back. */
  lemma {:induction false} CStringOfCString(s: string)
    requires IsCString(s)
    ensures CString(s) == s
  {
    if s != [] {
      CStringOfCString(s[1..]);
    }
  }

  /**
   * Output can be fed back as input: a record read as one input line with the
   * same delimiter gives back the printed text, "- " prefix included.
   * getdelim delivers the record as one line only when the path holds no
   * delimiter; a path with a newline comes back as two lines without `-0`.
   */
  lemma RecordReadsBack(delete: bool, path: string, delim: char)
    requires IsCString(path)
    ensures InputPath(Record(delete, path, delim), delim) == RecordText(delete, path)
  {
    var text := RecordText(delete, path);
    assert StripDelimiter(text + [delim], delim) == text by {
      assert (text + [delim])[..|text|] == text;
    }
    CStringOfCString(text);
  }

  /**
   * A NUL-delimited stream cut at every NUL: the C strings between them, and
   * a last piece when the stream does not end with NUL.
   */
  function SplitNul(s: string): (pieces: seq<string>)
    ensures forall i | 0 <= i < |pieces| :: IsCString(pieces[i])
    ensures |pieces| <= |s|
    decreases |s|
  {
    if s == [] then []
    else
      var c := CString(s);
      if |c| == |s| then [c] else [c] + SplitNul(s[|c| + 1..])
  }

  /** A C string followed by NUL reads back as itself, whatever comes after. */
  lemma {:induction false} CStringBeforeNul(text: string, rest: string)
    requires IsCString(text)
    ensures CString(text + [Nul] + rest) == text
  {
    if text == [] {
      assert (text + [Nul] + rest)[0] == Nul;
    } else {
      assert (text + [Nul] + rest)[0] == text[0];
      assert (text + [Nul] + rest)[1..] == text[1..] + [Nul] + rest;
      CStringBeforeNul(text[1..], rest);
    }
  }

  /**
   * Under `-0` the output splits unambiguously: cutting a NUL-terminated
   * stream of C-string texts at every NUL gives back exactly those texts.
   */
  lemma {:induction false} SplitNulTerminated(texts: seq<string>)
    requires forall i | 0 <= i < |texts| :: IsCString(texts[i])
    ensures SplitNul(Terminated(texts, Nul)) == texts
  {
    if texts != [] {
      var rest := Terminated(texts[1..], Nul);
      assert Terminated(texts, Nul) == texts[0] + [Nul] + rest;
      SplitNulStep(texts[0], rest);
      assert forall i | 0 <= i < |texts[1..]| :: texts[1..][i] == texts[i + 1];
      SplitNulTerminated(texts[1..]);
    }
  }

  /** The first piece of a stream that starts with a C string and NUL is that string. */
  lemma SplitNulStep(text: string, rest: string)
    requires IsCString(text)
    ensures SplitNul(text + [Nul] + rest) == [text] + SplitNul(rest)
  {
    var s := text + [Nul] + rest;
    CStringBeforeNul(text, rest);
    assert s[|text| + 1..] == rest;
  }

}
